=== FILE: README.md ===
# Link shortener core, modelled in Dafny

This project models the server side of a URL shortener: the Link record (`server/src/models/Link.js`) and the
handlers of `server/src/controllers/urlController.js`.

- `shortenUrl` creates a Link. It validates the body, refuses a custom alias that is already in use, and fills
  the defaults.
- `redirectUrl` resolves a short code. The checks run in a fixed order: unknown code (404), expired (410), no
  password offered to a protected Link (redirect to the client's password gate), wrong password (401), and
  success. Only success records a visit. Recording means normalising the client IP, filling default geo and
  user-agent fields, adding one to `clicks` and appending one entry to `visitHistory`. The response is then
  JSON `{url}` or a redirect to the destination.
- `getLinkAnalytics` is a read-only summary. It counts per country, OS and browser, builds a per-UTC-day
  timeline, and reports the stored `clicks` counter as `totalClicks`.
- `getUserStats` filters the Links by owner.

The collection is a `map<string, Link>` keyed by short code. `Links.ValidStore` states that every Link sits under
its own code (the unique index on `shortCode`) and has its required fields (the schema's `required` validators).
Each handler is a pure function. The two handlers that write return a `Reply` (response plus new store); the two
read-only handlers return only their response.

Representation choices:
- A JavaScript value that may be absent and is tested for truthiness is a `string`. All its falsy forms
  (undefined, null, "") are "".
- Nullable Link fields (the password hash, `expiresAt`) and the visit timestamp are `Option`s.
- Times are integers in milliseconds since the epoch, as in ECMAScript.
- Dafny files: `options.dfy`, `jsstring.dfy` (trim, `split(',')[0]`, `includes`), `tally.dfy` (the counting
  pass over a plain object), `links.dfy`, `creation.dfy`, `redirection.dfy`, `analytics.dfy`, `scenarios.dfy`
  (properties that relate several handlers), and `objectkeys.dfy` (the finding below).

Notes on the code's behaviour:
- Expiry is strict (`now > expiresAt`), so a Link still resolves at the instant `expiresAt`.
- The server's timeline is in first-appearance order, not sorted by day. Only the web client sorts it.
- There is no code generator and no retry loop. Without an alias, the insert lacks its required `shortCode` and
  ends in the 500 handler. `Creation.ShortenUrl` takes a hypothetical `generated` code. `None` is the code as
  written. `Some(c)` stands for a generator that is not present in the source and must pick an unused code.
- Visits are recorded inline before the response, not through a queue.

## Model

| member | source | states |
|---|---|---|
| `Links.Create` | server/src/models/Link.js:3-20 | Validation succeeds exactly when `originalUrl` and `shortCode` are non-empty and `expiresAt` is a valid Date. A new Link has `userId` defaulting to `anonymous`, `clicks` 0 and an empty `visitHistory`. The unique index is not checked here: `Creation.ShortenUrl` inserts only a code not in use (the 409 check, and a generated code must be unused). |
| `Creation.StoredPassword` | server/src/controllers/urlController.js:18-19 | A hash is stored exactly when the offered password is non-empty, and it is the hash of that password; otherwise null. |
| `Creation.ShortenUrl` | server/src/controllers/urlController.js:8-38 | Missing `url` gives 400 and a used alias gives 409, each leaving the store unchanged. A missing code or an invalid expiry gives 500 and also leaves the store unchanged. On 201 exactly one Link is added, under the alias unchanged (or the generated code), with owner default, hash only for a non-empty password, null expiry when absent, 0 clicks and empty history. The store stays valid. |
| `Redirection.CheckAccess` | server/src/controllers/urlController.js:48-57 | The decision table in its fixed order: unknown, then expired, then password gate, then wrong password, then granted. Each outcome is given as an if-and-only-if over the store, the clock and `compare`. |
| `Redirection.ExpiryDominates` | server/src/controllers/urlController.js:51 | An expired Link is gone whatever password is offered. Whether it is gone does not depend on the password. At `now == expiresAt` it is not gone. |
| `Redirection.ClientAddress` | server/src/controllers/urlController.js:60 | The forwarded-for header when present, otherwise the socket address. |
| `Redirection.NormalizeIp` | server/src/controllers/urlController.js:61-64 | A value with a comma becomes its first segment, trimmed. A loopback address (`::1`, `127.0.0.1`) becomes `8.8.8.8`. Anything else is unchanged. No comma and no loopback address survive. |
| `Redirection.NormalizeIpIdempotent` | server/src/controllers/urlController.js:61-64 | Normalising twice is normalising once. |
| `Redirection.NewVisit` | server/src/controllers/urlController.js:74-82 | The visit carries the current time and the IP. Falsy country, city, OS and browser become `Unknown` and a falsy device becomes `Desktop`; other values are kept. No field other than `ip` is empty. |
| `Redirection.VisitFor` | server/src/controllers/urlController.js:60-82 | The visit a request records carries the current time and the normalised client address, which has no comma and no loopback value. Geo data is looked up on that normalised address and the agent fields come from the parsed user-agent header, with the defaults `Redirection.NewVisit` states, so country, city, OS, device and browser are never empty. `Redirection.RedirectUrl` states that exactly this visit is recorded on success. |
| `Redirection.RecordVisit` | server/src/controllers/urlController.js:73-82 | `clicks` goes up by exactly one, exactly one visit is appended after the old history, and no other field changes. |
| `Redirection.RedirectUrl` | server/src/controllers/urlController.js:42-88 | 404, 410, gate redirect and 401 each correspond exactly to their access decision and leave the store unchanged. The gate target is `CLIENT_URL?gate=<code>`. Success records one visit on that Link only and answers JSON `{url}` for an API call, otherwise a redirect to `originalUrl`. The store stays valid. |
| `Redirection.RedirectKeepsCounterGap` | server/src/controllers/urlController.js:73-74 | A redirect never changes `clicks - len(visitHistory)`. |
| `JsString.TrimBounds` | server/src/controllers/urlController.js:61 | `trim` removes a run of ECMAScript whitespace from each end and nothing else. Its result has no whitespace at either end. |
| `JsString.TrimIdempotent` | server/src/controllers/urlController.js:61 | Trimming twice is trimming once. |
| `JsString.FirstSegment` | server/src/controllers/urlController.js:61 | `split(',')[0]` is the longest prefix without a comma. |
| `JsString.Includes` | server/src/controllers/urlController.js:45 | `includes` holds exactly when the needle occurs at some position. |
| `Tally.BumpValues` | server/src/controllers/urlController.js:117 | One counting step adds one to the counted key and leaves every other count alone. |
| `Tally.BumpTotal` | server/src/controllers/urlController.js:117 | One counting step adds one to the sum of the counts. |
| `Tally.BumpNames` | server/src/controllers/urlController.js:117 | A counting step lists a new name only for an unseen key, and lists it last. |
| `Tally.CountByCounts` | server/src/controllers/urlController.js:113-120 | Every name is listed once and every listed value occurs. Each count equals the number of occurrences (the multiset of the input) and is positive. |
| `Tally.CountByTotal` | server/src/controllers/urlController.js:113-120 | The counts add up to the number of values counted. |
| `Tally.CountByOrder` | server/src/controllers/urlController.js:122-129 | Names are listed in order of first occurrence, the insertion order of `Object.keys`. |
| `Analytics.KeyOf` | server/src/controllers/urlController.js:116 | A falsy field is counted under `Unknown`; any other value under itself. |
| `Analytics.AggregateCounts` | server/src/controllers/urlController.js:111-120 | Per dimension the names are distinct. Each count is the number of visits with that key, and the counts add up to the history length. A name appears exactly when some visit has that key, and no name is empty. |
| `Analytics.DayOf` | server/src/controllers/urlController.js:125 | The UTC day number of a timestamp: the day whose millisecond interval contains it. |
| `Analytics.DaysContents` | server/src/controllers/urlController.js:123-128 | Visits without a timestamp are skipped. There is one day per timestamped visit, and a day occurs exactly when some timestamped visit falls on it. |
| `Analytics.DaysMultiset` | server/src/controllers/urlController.js:123-128 | Each UTC day occurs in the list of visit days exactly as often as there are visits whose timestamp falls on it. |
| `Analytics.TimelineFacts` | server/src/controllers/urlController.js:122-130 | The timeline lists each UTC day of a timestamped visit once, in first-appearance order. Each day's count is the number of visits on that day, and the counts add up to the number of timestamped visits. |
| `Analytics.Summarize` | server/src/controllers/urlController.js:111-140 | The try/catch body of `getLinkAnalytics`. A timestamp that cannot be printed gives the catch fallback. Otherwise `totalClicks` is the stored counter, each dimension adds up to the history length, and the timeline adds up to the timestamped visits. `Analytics.SummaryFacts` and `Analytics.TimelineFacts` state the per-key and per-day counts. |
| `Analytics.LinkAnalytics` | server/src/controllers/urlController.js:104-141 | An unknown code gives 404. Otherwise the report is the Link's summary: the catch fallback when a timestamp cannot be printed, else `totalClicks` is the stored counter, the country, OS and browser counts each add up to the history length, and the timeline adds up to the timestamped visits. |
| `Analytics.SummaryFacts` | server/src/controllers/urlController.js:122-137 | `totalClicks` is `clicks`, not the history length. Each dimension adds up to the history length. The timeline has one distinct entry per UTC day among timestamped visits, in first-appearance order. Each day's count is the number of visits on that day, and the counts add up to the number of timestamped visits. |
| `Analytics.UserStats` | server/src/controllers/urlController.js:96-99 | Exactly the Links whose `userId` is the given owner, unchanged. |
| `Scenarios.CreatedLinkResolves` | server/src/controllers/urlController.js:22-29 | A Link created without a password resolves to its `url` (JSON or redirect by the Accept header) until it expires, for any offered password. |
| `Scenarios.AliasTakenAfterCreate` | server/src/controllers/urlController.js:13-15 | After a Link is created with an alias, a second shorten with that alias gets 409 and changes nothing. |
| `Scenarios.CreatedLinkIsOwned` | server/src/models/Link.js:5-6 | Creation keeps codes unique and grows the store by one. The new Link joins its owner's Links, and no other owner's list changes. |
| `Scenarios.ProtectedLinkOutcomes` | server/src/controllers/urlController.js:53-57 | For a Link created with a password: no password leads to the gate, a rejected one to 401, an accepted one to success. |
| `Scenarios.PastExpiryIsExpired` | server/src/controllers/urlController.js:51 | A Link created with an expiry before `now` answers 410, never 404 or success, whatever the password. |
| `Scenarios.AggregateSnoc` | server/src/controllers/urlController.js:115-118 | Appending one visit adds one to its key's count in a dimension and one to the total. |
| `Scenarios.RecordedVisitInBreakdown` | server/src/controllers/urlController.js:113-119 | Recording a visit adds one to its key's count in a dimension of the report, and one to that dimension's total. |
| `Scenarios.RecordedVisitOnTimeline` | server/src/controllers/urlController.js:122-132 | Recording a visit adds one to `totalClicks`, one to its UTC day's timeline count and one to the timeline's total. |
| `Scenarios.RedirectShowsInAnalytics` | server/src/controllers/urlController.js:73-82 | A granted redirect adds one to `totalClicks` and one to the visit's count in every dimension. It also adds one to the current UTC day in the timeline. |
| `Scenarios.AcceptedResolution` | server/src/controllers/urlController.js:48-84 | A request to an unexpired Link that is open, or that offers a password `compare` accepts, records one visit and leaves the Link's password and expiry as they were. |
| `Scenarios.RepeatedResolutions` | server/src/controllers/urlController.js:73-84 | N resolutions of an unexpired Link add N clicks and append N visits after the old history, when the Link is open or every request offers a password `compare` accepts. |
| `Scenarios.RepeatedResolutionsReported` | server/src/controllers/urlController.js:132 | After N resolutions the analytics report N more clicks than before. |
| `Scenarios.ThreeCountries` | server/src/controllers/urlController.js:113-119 | Visits from US, US, FR give `[US: 2, FR: 1]`. |
| `ObjectKeys.AsWrittenAgreesOffPrototype` | server/src/controllers/urlController.js:113-119 | The as-written pass over a plain object counts every key correctly when no key is an `Object.prototype` name. |
| `ObjectKeys.ProtoKeyDropped` | server/src/controllers/urlController.js:114-119 | As written, a visit from country `__proto__` leaves no own property, so it is missing from the listing. The corrected count lists it once. |
| `ObjectKeys.ConstructorKeyGarbled` | server/src/controllers/urlController.js:117 | As written, a key `constructor` gets a string value instead of 1. |

## Left out

- HTTP and Express wiring, CORS, rate limiting, Socket.IO and the database connection (`server/src/app.js`, `server/src/routes/api.js`, `server/src/middleware/errorHandler.js`): transport plumbing.
- The sanitising middleware, `express-mongo-sanitize` and `xss-clean` (`server/src/app.js:66-69`): they rewrite the body and query before a handler runs (for example `<` becomes `&lt;`). A modelled request is the sanitised one the handler sees.
- The BullMQ worker, its Event collection and Redis (`server/src/worker.js`, `server/src/config/redis.js`): the redirect handler does not use them, and the Redis cache in `shortenUrl` is commented out.
- The React client, including its timeline sort and carousel: presentation.
- bcrypt's hash and compare, `geoip.lookup` and `UAParser` are function parameters. bcrypt's salt makes `hash` one draw of the randomness.
- The clock is the parameter `now`. The two `new Date()` reads of a redirect (the expiry test and the visit timestamp) are taken as the same instant.
- Database failures and thrown library errors are not modelled: the 500 answers of `redirectUrl` and `getUserStats`, and analytics failures other than an unprintable timestamp. They are I/O.
- Concurrency is not modelled: the race between the alias lookup and the insert, and the read-modify-write race of `link.save()`. Uniqueness is stated as the store invariant instead.
- Creation.ShortenUrl: `expiresAt` is taken as an already parsed time value. Parsing a date string and the Invalid Date an unparsable string gives are not modelled.
- Creation.ShortenUrl: the fields Mongoose adds (`_id`, `createdAt`, `updatedAt`) are not modelled.
- Analytics.UserStats: a filter only; the newest-first sort by `createdAt` is not modelled.
- Redirection.RecordVisit: `clicks` is unbounded. JavaScript numbers stop counting exactly past 2^53.
- Redirection.RedirectUrl: the password query parameter is a string. An array-valued parameter, which makes bcrypt throw, is not modelled.
- Redirection.RedirectUrl: an unset `CLIENT_URL` turns into the text `undefined` in the gate target; here it is just the string parameter.
- Analytics.AggregateCounts: states no order for dimension entries. The model lists them in first-appearance order. `Object.entries` puts array-index keys such as `"42"` first, in numeric order.
- Analytics.AggregateCounts: counts with an ordinary dictionary. Keys named after `Object.prototype` properties behave differently in the source (see Findings).
- The schema default `timestamp: Date.now` of a visit (`server/src/models/Link.js:13`) is not modelled: `Visit.timestamp` is an `Option` with no default, because the only writer (`server/src/controllers/urlController.js:75`) always sets it.
- Analytics.Summarize: timeline names are UTC day numbers, not the `YYYY-MM-DD` strings of `toISOString().split('T')[0]`. The label is a one-to-one function of the day number, so the grouping and the counts are the same; the string formatting is not modelled.
- The `if (!link.visitHistory)` guard is not modelled: a stored Link always has a history sequence.

## Findings

| source | as written | input that shows it | evidently intended | confidence | as-written member | corrected member |
|---|---|---|---|---|---|---|
| server/src/controllers/urlController.js:114-119 | `counts` is a plain `{}`. A key that names an `Object.prototype` property is read through the prototype: `__proto__` updates are ignored, and `constructor`, `toString`, and the like become strings. | one visit whose `country` is `__proto__`: the country listing is empty although the history has one visit | every visit counted once under its key, so each dimension adds up to the history length | not executed; low: geo-IP and user-agent lookups normally yield fixed names, so it needs a stored visit field holding such a name | `ObjectKeys.ProtoKeyDropped` | `Analytics.AggregateCounts` |

=== FILE: analytics.dfy ===
/**
  `getLinkAnalytics` and `getUserStats`: read-only views of the store. The
  analytics are one counting pass per dimension over `visitHistory` and one over
  the UTC days of the timestamped visits.
 */
module Analytics {
  import opened JsString
  import opened Links
  import opened Tally

  /** The visit fields the handler groups by. */
  datatype Dimension = Country | Os | Browser

  function Field(v: Visit, d: Dimension): string {
    match d
    case Country => v.country
    case Os => v.os
    case Browser => v.browser
  }

  /** `v[field] || 'Unknown'`. */
  function KeyOf(v: Visit, d: Dimension): (k: string)
    ensures k != ""
    ensures Field(v, d) != "" ==> k == Field(v, d)
    ensures Field(v, d) == "" ==> k == UnknownName
  {
    OrDefault(Field(v, d), UnknownName)
  }

  function Keys(h: seq<Visit>, d: Dimension): (ks: seq<string>)
    ensures |ks| == |h|
    ensures forall i :: 0 <= i < |h| ==> ks[i] == KeyOf(h[i], d)
  {
    seq(|h|, i requires 0 <= i < |h| => KeyOf(h[i], d))
  }

  /** `agg(field)`. */
  function Aggregate(h: seq<Visit>, d: Dimension): seq<Entry<string>> {
    CountBy(Keys(h, d))
  }

  /**
    Every visit is counted exactly once under its key: names are distinct, each
    count is the number of visits with that key, and the counts add up to the
    length of the history. "Unknown" collects the visits whose field is falsy.
   */
  lemma AggregateCounts(h: seq<Visit>, d: Dimension)
    ensures Distinct(Names(Aggregate(h, d)))
    ensures Total(Aggregate(h, d)) == |h|
    ensures forall k :: ValueOf(Aggregate(h, d), k) == multiset(Keys(h, d))[k]
    ensures forall k :: k in Names(Aggregate(h, d)) <==> exists i :: 0 <= i < |h| && KeyOf(h[i], d) == k
    ensures "" !in Names(Aggregate(h, d))
  {
    var ks := Keys(h, d);
    CountByCounts(ks);
    CountByTotal(ks);
    forall k ensures k in ks <==> exists i :: 0 <= i < |h| && KeyOf(h[i], d) == k {
      if k in ks {
        var i :| 0 <= i < |ks| && ks[i] == k;
        assert KeyOf(h[i], d) == k;
      }
    }
  }

  /** Milliseconds per day in ECMAScript's time model. */
  const MsPerDay: int := 86_400_000

  /**
    The UTC day of a time value, ECMA-262's Day(t) = floor(t / msPerDay).
    The `YYYY-MM-DD` label `toISOString` prints is a one-to-one function of it,
    so grouping by this number groups exactly as the labels do.
   */
  function DayOf(t: int): (day: int)
    ensures day * MsPerDay <= t < (day + 1) * MsPerDay
  {
    t / MsPerDay
  }

  /** The UTC days of the visits that carry a timestamp, in history order. */
  function Days(h: seq<Visit>): seq<int>
  {
    if |h| == 0 then []
    else
      var last := h[|h| - 1];
      Days(h[..|h| - 1]) + (if last.timestamp.Some? then [DayOf(last.timestamp.value)] else [])
  }

  /** Number of visits that carry a timestamp. */
  function TimestampedCount(h: seq<Visit>): nat
  {
    |set i | 0 <= i < |h| && h[i].timestamp.Some?|
  }

  lemma TimestampedCountSnoc(h: seq<Visit>)
    requires |h| > 0
    ensures TimestampedCount(h) ==
      TimestampedCount(h[..|h| - 1]) + (if h[|h| - 1].timestamp.Some? then 1 else 0)
  {
    var init := h[..|h| - 1];
    var si := set i | 0 <= i < |init| && init[i].timestamp.Some?;
    var sh := set i | 0 <= i < |h| && h[i].timestamp.Some?;
    if h[|h| - 1].timestamp.Some? {
      assert sh == si + {|h| - 1};
    } else {
      assert sh == si;
    }
  }

  /** Visits without a timestamp are skipped: one day per timestamped visit, and a day occurs exactly when some such visit falls on it. */
  lemma {:induction false} DaysContents(h: seq<Visit>)
    ensures |Days(h)| == TimestampedCount(h)
    ensures forall day :: day in Days(h) <==>
      exists i :: 0 <= i < |h| && h[i].timestamp.Some? && DayOf(h[i].timestamp.value) == day
  {
    if |h| > 0 {
      var init := h[..|h| - 1];
      DaysContents(init);
      TimestampedCountSnoc(h);
      forall day ensures day in Days(h) <==>
        exists i :: 0 <= i < |h| && h[i].timestamp.Some? && DayOf(h[i].timestamp.value) == day
      {
        if day in Days(init) {
          var i :| 0 <= i < |init| && init[i].timestamp.Some? && DayOf(init[i].timestamp.value) == day;
          assert h[i] == init[i];
        }
      }
    }
  }

  /** A visit that carries a timestamp on UTC day `day`. */
  predicate OnDay(v: Visit, day: int) {
    v.timestamp.Some? && DayOf(v.timestamp.value) == day
  }

  /** Number of visits whose timestamp falls on UTC day `day`. */
  function DayCount(h: seq<Visit>, day: int): nat
  {
    |set i | 0 <= i < |h| && OnDay(h[i], day)|
  }

  lemma DayCountSnoc(h: seq<Visit>, day: int)
    requires |h| > 0
    ensures DayCount(h, day) == DayCount(h[..|h| - 1], day) + (if OnDay(h[|h| - 1], day) then 1 else 0)
  {
    var init := h[..|h| - 1];
    var si := set i | 0 <= i < |init| && OnDay(init[i], day);
    var sh := set i | 0 <= i < |h| && OnDay(h[i], day);
    if OnDay(h[|h| - 1], day) {
      assert sh == si + {|h| - 1};
    } else {
      assert sh == si;
    }
  }

  /** Each UTC day occurs in `Days` once per visit that falls on it. */
  lemma {:induction false} DaysMultiset(h: seq<Visit>, day: int)
    ensures multiset(Days(h))[day] == DayCount(h, day)
  {
    if |h| > 0 {
      var init := h[..|h| - 1];
      DaysMultiset(init, day);
      DayCountSnoc(h, day);
      var last := h[|h| - 1];
      assert Days(h) == Days(init) + (if last.timestamp.Some? then [DayOf(last.timestamp.value)] else []);
    }
  }

  /** `Date.toISOString` throws a RangeError for a timestamp outside the time-value range. */
  predicate TimestampsPrintable(h: seq<Visit>) {
    forall i :: 0 <= i < |h| && h[i].timestamp.Some? ==> IsTimeValue(h[i].timestamp.value)
  }

  /** The JSON body of the analytics response. Timeline names are UTC day numbers. */
  datatype Summary = Summary(
    totalClicks: nat,
    countries: seq<Entry<string>>,
    os: seq<Entry<string>>,
    browsers: seq<Entry<string>>,
    timeline: seq<Entry<int>>)

  /** The per-dimension listing of a summary. */
  function Breakdown(s: Summary, d: Dimension): seq<Entry<string>> {
    match d
    case Country => s.countries
    case Os => s.os
    case Browser => s.browsers
  }

  /** What the catch block sends when building the summary throws. */
  const EmptySummary: Summary := Summary(0, [], [], [], [])

  datatype AnalyticsResponse = AnalyticsNotFound | Report(summary: Summary)

  /** Each dimension's counts add up to the history length, the timeline's to the timestamped visits. */
  lemma ReportTotals(h: seq<Visit>)
    ensures Total(Aggregate(h, Country)) == |h|
    ensures Total(Aggregate(h, Os)) == |h|
    ensures Total(Aggregate(h, Browser)) == |h|
    ensures Total(CountBy(Days(h))) == TimestampedCount(h)
  {
    CountByTotal(Keys(h, Country));
    CountByTotal(Keys(h, Os));
    CountByTotal(Keys(h, Browser));
    DaysContents(h);
    CountByTotal(Days(h));
  }

  /**
    The try/catch body of the handler: the catch fallback when a timestamp cannot be
    printed, otherwise a report whose total is the stored counter, whose dimensions
    each account for every visit, and whose timeline accounts for every timestamped one.
   */
  function Summarize(l: Link): (s: Summary)
    ensures !TimestampsPrintable(l.visitHistory) ==> s == EmptySummary
    ensures TimestampsPrintable(l.visitHistory) ==>
      && s.totalClicks == l.clicks
      && Total(s.countries) == |l.visitHistory|
      && Total(s.os) == |l.visitHistory|
      && Total(s.browsers) == |l.visitHistory|
      && Total(s.timeline) == TimestampedCount(l.visitHistory)
  {
    if !TimestampsPrintable(l.visitHistory) then EmptySummary
    else
      var h := l.visitHistory;
      ReportTotals(h);
      Summary(l.clicks, Aggregate(h, Country), Aggregate(h, Os), Aggregate(h, Browser), CountBy(Days(h)))
  }

  function LinkAnalytics(store: Store, code: string): (r: AnalyticsResponse)
    ensures r.AnalyticsNotFound? <==> code !in store
    ensures r.Report? && !TimestampsPrintable(store[code].visitHistory) ==> r.summary == EmptySummary
    ensures r.Report? ==> r.summary == Summarize(store[code])
    ensures r.Report? && TimestampsPrintable(store[code].visitHistory) ==>
      var h := store[code].visitHistory;
      && r.summary.totalClicks == store[code].clicks
      && Total(r.summary.countries) == |h|
      && Total(r.summary.os) == |h|
      && Total(r.summary.browsers) == |h|
      && Total(r.summary.timeline) == TimestampedCount(h)
  {
    if code !in store then AnalyticsNotFound else Report(Summarize(store[code]))
  }

  /**
    The timeline of a history: one entry per distinct UTC day, in order of first
    appearance; each day's count is the number of visits on that day, and the
    counts add up to the timestamped visits.
   */
  lemma TimelineFacts(h: seq<Visit>)
    ensures var t := CountBy(Days(h));
      && Distinct(Names(t))
      && Total(t) == TimestampedCount(h)
      && InFirstAppearanceOrder(Names(t), Days(h))
      && (forall day :: ValueOf(t, day) == DayCount(h, day))
      && forall day :: day in Names(t) <==>
           exists i :: 0 <= i < |h| && h[i].timestamp.Some? && DayOf(h[i].timestamp.value) == day
  {
    DaysContents(h);
    CountByCounts(Days(h));
    CountByTotal(Days(h));
    CountByOrder(Days(h));
    forall day ensures ValueOf(CountBy(Days(h)), day) == DayCount(h, day) {
      DaysMultiset(h, day);
    }
  }

  /**
    The report for a Link: the total is the stored counter (not the history length),
    each dimension counts every visit once, and the timeline is that of the history.
   */
  lemma SummaryFacts(l: Link)
    requires TimestampsPrintable(l.visitHistory)
    ensures var s := Summarize(l);
      && s.totalClicks == l.clicks
      && Total(s.countries) == |l.visitHistory|
      && Total(s.os) == |l.visitHistory|
      && Total(s.browsers) == |l.visitHistory|
      && Distinct(Names(s.timeline))
      && Total(s.timeline) == TimestampedCount(l.visitHistory)
      && InFirstAppearanceOrder(Names(s.timeline), Days(l.visitHistory))
      && (forall day :: ValueOf(s.timeline, day) == DayCount(l.visitHistory, day))
      && forall day :: day in Names(s.timeline) <==>
           exists i :: 0 <= i < |l.visitHistory| && l.visitHistory[i].timestamp.Some?
                       && DayOf(l.visitHistory[i].timestamp.value) == day
  {
    var h := l.visitHistory;
    AggregateCounts(h, Country);
    AggregateCounts(h, Os);
    AggregateCounts(h, Browser);
    TimelineFacts(h);
  }

  /** `Link.find({ userId })`: the Links owned by `userId`. */
  function UserStats(store: Store, userId: string): (owned: Store)
    ensures owned.Keys <= store.Keys
    ensures forall c :: c in owned ==> owned[c] == store[c] && owned[c].userId == userId
    ensures forall c :: c in store && store[c].userId == userId ==> c in owned
  {
    map c | c in store && store[c].userId == userId :: store[c]
  }
}

=== FILE: creation.dfy ===
/** `shortenUrl`: the POST handler that creates a Link. */
module Creation {
  import opened Options
  import opened Links

  /** The JSON body. A field that is absent, null or "" is "" (or `None`); `expiresAt` is already a time value. */
  datatype ShortenRequest = ShortenRequest(
    url: string,
    userId: string,
    password: string,
    expiresAt: Option<int>,
    customAlias: string)

  datatype ShortenResponse =
    | Created(link: Link)  // 201 with the stored document
    | UrlRequired          // 400
    | AliasInUse           // 409
    | ServerError          // 500 from the catch block

  /** The password hash stored for a requested password: none for an empty one. */
  function StoredPassword(password: string, hash: string -> string): (h: Option<string>)
    ensures h.Some? <==> password != ""
    ensures h.Some? ==> h.value == hash(password)
  {
    if password != "" then Some(hash(password)) else None
  }

  /**
    Handles one shorten request. `hash` is bcrypt's salted hash. The handler has no
    code generator: without an alias the document lacks its required `shortCode` and
    the insert fails. `generated` is a hypothetical fresh code (`None` is the handler as
    written), and a generator would have to pick one that is not in use.
   */
  function ShortenUrl(store: Store, req: ShortenRequest, hash: string -> string, generated: Option<string>)
    : (r: Reply<ShortenResponse>)
    requires generated.Some? ==> generated.value !in store
    ensures r.response.UrlRequired? <==> req.url == ""
    ensures r.response.AliasInUse? <==> req.url != "" && req.customAlias != "" && req.customAlias in store
    ensures r.response.ServerError? <==>
      && req.url != ""
      && !(req.customAlias != "" && req.customAlias in store)
      && ((req.customAlias == "" && (generated.None? || generated.value == ""))
          || (req.expiresAt.Some? && !IsTimeValue(req.expiresAt.value)))
    ensures !r.response.Created? ==> r.store == store
    ensures r.response.Created? ==>
      var l := r.response.link;
      && l.shortCode !in store
      && r.store == store[l.shortCode := l]
      && (req.customAlias != "" ==> l.shortCode == req.customAlias)
      && (req.customAlias == "" ==> generated == Some(l.shortCode))
      && l.originalUrl == req.url
      && (req.userId != "" ==> l.userId == req.userId)
      && (req.userId == "" ==> l.userId == Anonymous)
      && (l.password.Some? <==> req.password != "")
      && (req.password != "" ==> l.password == Some(hash(req.password)))
      && l.expiresAt == req.expiresAt
      && l.clicks == 0
      && l.visitHistory == []
    ensures ValidStore(store) ==> ValidStore(r.store)
  {
    if req.url == "" then Reply(UrlRequired, store)
    else if req.customAlias != "" && req.customAlias in store then Reply(AliasInUse, store)
    else
      var code := if req.customAlias != "" then Some(req.customAlias) else generated;
      var owner := if req.userId != "" then req.userId else Anonymous;
      match Create(req.url, code, Some(owner), StoredPassword(req.password, hash), req.expiresAt)
      case None => Reply(ServerError, store)
      case Some(l) => Reply(Created(l), store[l.shortCode := l])
  }
}

=== FILE: jsstring.dfy ===
/**
  The few JavaScript string operations the server relies on:
  `String.prototype.trim`, `s.split(',')[0]` and `String.prototype.includes`.
  Strings are sequences of code points.
 */
module JsString {

  /** JavaScript's `s || fallback` on a string: "" is its only falsy value. */
  function OrDefault(s: string, fallback: string): string {
    if s != "" then s else fallback
  }

  /** ECMAScript WhiteSpace and LineTerminator code points: exactly what `trim` removes. */
  predicate IsWhitespace(c: char) {
    || c == '\t' || c == '\U{000B}' || c == '\U{000C}' || c == ' ' || c == '\U{00A0}' || c == '\U{FEFF}'
    || c == '\U{1680}' || ('\U{2000}' <= c <= '\U{200A}') || c == '\U{202F}' || c == '\U{205F}' || c == '\U{3000}'
    || c == '\n' || c == '\r' || c == '\U{2028}' || c == '\U{2029}'
  }

  /** The end of the whitespace run that starts at `i`. */
  function WhitespaceRunEnd(s: string, i: nat): (n: nat)
    requires i <= |s|
    ensures i <= n <= |s|
    ensures forall k :: i <= k < n ==> IsWhitespace(s[k])
    ensures n < |s| ==> !IsWhitespace(s[n])
    decreases |s| - i
  {
    if i < |s| && IsWhitespace(s[i]) then WhitespaceRunEnd(s, i + 1) else i
  }

  /** The start of the whitespace run that ends at `j`, not going below `lo`. */
  function WhitespaceRunStart(s: string, lo: nat, j: nat): (n: nat)
    requires lo <= j <= |s|
    ensures lo <= n <= j
    ensures forall k :: n <= k < j ==> IsWhitespace(s[k])
    ensures n > lo ==> !IsWhitespace(s[n - 1])
    decreases j
  {
    if j > lo && IsWhitespace(s[j - 1]) then WhitespaceRunStart(s, lo, j - 1) else j
  }

  /** `s.trim()`: the slice between the leading and the trailing whitespace run. */
  function Trim(s: string): string
  {
    var i := WhitespaceRunEnd(s, 0);
    s[i..WhitespaceRunStart(s, i, |s|)]
  }

  /** `trim` cuts a whitespace run off each end and nothing else, and its result has no whitespace at either end. */
  lemma TrimBounds(s: string) returns (i: nat, j: nat)
    ensures i <= j <= |s| && Trim(s) == s[i..j]
    ensures forall k :: 0 <= k < i ==> IsWhitespace(s[k])
    ensures forall k :: j <= k < |s| ==> IsWhitespace(s[k])
    ensures |Trim(s)| > 0 ==> !IsWhitespace(Trim(s)[0]) && !IsWhitespace(Trim(s)[|Trim(s)| - 1])
  {
    i := WhitespaceRunEnd(s, 0);
    j := WhitespaceRunStart(s, i, |s|);
    if i < j {
      assert Trim(s)[0] == s[i];
      assert Trim(s)[|Trim(s)| - 1] == s[j - 1];
    }
  }

  /** Trimming twice is trimming once. */
  lemma TrimIdempotent(s: string)
    ensures Trim(Trim(s)) == Trim(s)
  {
    var i, j := TrimBounds(s);
    var t := Trim(s);
    if |t| > 0 {
      assert WhitespaceRunEnd(t, 0) == 0;
      assert WhitespaceRunStart(t, 0, |t|) == |t|;
    }
  }

  /** `s.split(',')[0]`: the longest prefix of `s` that holds no comma. */
  function FirstSegment(s: string): (r: string)
    ensures r <= s
    ensures ',' !in r
    ensures |r| < |s| ==> s[|r|] == ','
  {
    if |s| == 0 || s[0] == ',' then "" else [s[0]] + FirstSegment(s[1..])
  }

  /** `s.includes(t)`: `t` occurs in `s` at some position. */
  function Includes(s: string, t: string): (r: bool)
    ensures r <==> exists i :: 0 <= i <= |s| && t <= s[i..]
  {
    if t <= s then
      assert t <= s[0..];
      true
    else if |s| == 0 then
      false
    else
      var r := Includes(s[1..], t);
      assert forall i :: 1 <= i <= |s| ==> s[i..] == s[1..][i - 1..];
      assert r ==> exists i :: 0 <= i <= |s| && t <= s[i..];
      r
  }
}

=== FILE: links.dfy ===
/**
  The Link record of the MongoDB schema and the collection that holds it.
  The collection is a map from short code to Link; the schema's unique index on
  `shortCode` becomes the invariant that every Link is stored under its own code.
  A JavaScript string that may be missing is a `string` whose falsy forms
  (undefined, null, "") are all "".
 */
module Links {
  import opened Options

  /** The ECMAScript time-value range: a Date outside plus or minus 8.64e15 ms is an Invalid Date. */
  const MaxTimeValue: int := 8_640_000_000_000_000

  predicate IsTimeValue(t: int) {
    -MaxTimeValue <= t <= MaxTimeValue
  }

  /** Default owner of a Link created without a user id. */
  const Anonymous: string := "anonymous"

  /** The name a falsy geo or user-agent field is recorded and counted under. */
  const UnknownName: string := "Unknown"

  /** One entry of `visitHistory`. A timestamp is milliseconds since the epoch. */
  datatype Visit = Visit(
    timestamp: Option<int>,
    ip: string,
    country: string,
    city: string,
    os: string,
    device: string,
    browser: string)

  /** `password` holds the bcrypt hash, never the password itself. */
  datatype Link = Link(
    originalUrl: string,
    shortCode: string,
    userId: string,
    password: Option<string>,
    clicks: nat,
    expiresAt: Option<int>,
    visitHistory: seq<Visit>)

  type Store = map<string, Link>

  /** The new state of the store together with the HTTP response an operation sends. */
  datatype Reply<R> = Reply(response: R, store: Store)

  /** The schema's required fields: Mongoose rejects a missing or empty required string. */
  predicate WellFormed(l: Link) {
    l.originalUrl != "" && l.shortCode != ""
  }

  /** Every Link is stored under its own short code, so no two Links share a code. */
  predicate ValidStore(s: Store) {
    forall c :: c in s ==> s[c].shortCode == c && WellFormed(s[c])
  }

  /**
    `Link.create`: validates the document against the schema, fills the defaults
    and yields the new record, or fails with a validation or cast error (`None`).
   */
  function Create(
    originalUrl: string,
    shortCode: Option<string>,
    userId: Option<string>,
    password: Option<string>,
    expiresAt: Option<int>): (r: Option<Link>)
    ensures r.Some? <==>
      && originalUrl != ""
      && shortCode.Some? && shortCode.value != ""
      && (expiresAt.Some? ==> IsTimeValue(expiresAt.value))
    ensures r.Some? ==>
      && WellFormed(r.value)
      && r.value.originalUrl == originalUrl
      && Some(r.value.shortCode) == shortCode
      && r.value.userId == userId.GetOr(Anonymous)
      && r.value.password == password
      && r.value.expiresAt == expiresAt
      && r.value.clicks == 0
      && r.value.visitHistory == []
  {
    if originalUrl == "" then None
    else if shortCode.None? || shortCode.value == "" then None
    else if expiresAt.Some? && !IsTimeValue(expiresAt.value) then None
    else Some(Link(originalUrl, shortCode.value, userId.GetOr(Anonymous), password, 0, expiresAt, []))
  }
}

=== FILE: objectkeys.dfy ===
/**
  The counting pass of `agg` exactly as written: `counts` is a plain `{}` and so
  inherits the properties of `Object.prototype`. A key that names one of them is
  read through the prototype. `__proto__` is an accessor whose setter ignores a
  string, so such visits vanish from the listing; any other inherited name holds a
  function, and `function + 1` is a string, so that entry's value is not a count.
  The rest of the model counts with `Tally.CountBy`, which treats every key alike.
 */
module ObjectKeys {
  import opened Options
  import opened Links
  import opened Tally
  import opened Analytics

  /** The own properties of `Object.prototype` in Node.js. */
  const InheritedNames: set<string> := {
    "constructor", "__defineGetter__", "__defineSetter__", "hasOwnProperty",
    "__lookupGetter__", "__lookupSetter__", "isPrototypeOf", "propertyIsEnumerable",
    "toString", "valueOf", "__proto__", "toLocaleString"}

  /** The value of an own property of `counts`: a number, or a string produced by `inherited + 1`. */
  datatype Cell = Num(n: nat) | Text

  /** `counts[key] = (counts[key] || 0) + 1`, with the own properties of `counts` as a map. */
  function CountStep(counts: map<string, Cell>, key: string): map<string, Cell>
  {
    if key == "__proto__" then counts
    else if key in counts then counts[key := if counts[key].Num? then Num(counts[key].n + 1) else Text]
    else if key in InheritedNames then counts[key := Text]
    else counts[key := Num(1)]
  }

  /** The own properties of `counts` after the pass over `keys`. */
  function CountsAsWritten(keys: seq<string>): map<string, Cell>
  {
    if |keys| == 0 then map[] else CountStep(CountsAsWritten(keys[..|keys| - 1]), keys[|keys| - 1])
  }

  /** Away from the inherited names the pass as written counts every key correctly. */
  lemma {:induction false} AsWrittenAgreesOffPrototype(keys: seq<string>)
    requires forall i :: 0 <= i < |keys| ==> keys[i] !in InheritedNames
    ensures forall k :: k in CountsAsWritten(keys) <==> k in keys
    ensures forall k :: k in CountsAsWritten(keys) ==> CountsAsWritten(keys)[k] == Num(multiset(keys)[k])
  {
    if |keys| > 0 {
      var init, x := keys[..|keys| - 1], keys[|keys| - 1];
      assert keys == init + [x];
      AsWrittenAgreesOffPrototype(init);
      assert multiset(keys) == multiset(init) + multiset{x};
    }
  }

  /** A history with one visit from country `__proto__`. */
  const ProtoVisit: Visit := Visit(Some(0), "", "__proto__", "", "", "", "")

  /**
    As written, the visit from `__proto__` is lost: the object has no own property
    and the country listing is empty, while the corrected count lists it once and
    adds up to the history length.
   */
  lemma ProtoKeyDropped()
    ensures CountsAsWritten(Keys([ProtoVisit], Country)) == map[]
    ensures Aggregate([ProtoVisit], Country) == [Entry("__proto__", 1)]
    ensures Total(Aggregate([ProtoVisit], Country)) == |[ProtoVisit]|
  {
    var ks := Keys([ProtoVisit], Country);
    assert ks == ["__proto__"];
    assert ks[..0] == [];
    assert CountBy(ks) == Bump([], "__proto__");
  }

  /** As written, a visit under `constructor` yields an entry whose value is a string, not 1. */
  lemma ConstructorKeyGarbled()
    ensures CountsAsWritten(["constructor"]) == map["constructor" := Text]
    ensures CountBy(["constructor"]) == [Entry("constructor", 1)]
  {
    var ks: seq<string> := ["constructor"];
    assert ks[..0] == [];
  }
}

=== FILE: options.dfy ===
/** Optional values: the model's stand-in for JavaScript's nullable fields. */
module Options {

  datatype Option<+T> = None | Some(value: T) {

    /** Returns the wrapped value, or `default` when there is none. */
    function GetOr(default: T): T {
      match this
      case Some(v) => v
      case None => default
    }
  }
}

=== FILE: redirection.dfy ===
/**
  `redirectUrl`: resolves a short code. Checks run in a fixed order (unknown code,
  expiry, password gate, wrong password) and only a granted request records a visit.
  The clock, bcrypt's compare, the geo-IP table and the user-agent parser are parameters.
 */
module Redirection {
  import opened Options
  import opened JsString
  import opened Links

  /** What `geoip.lookup` returns on a hit; a miss is `None`. Missing fields are "". */
  datatype Geo = Geo(country: string, city: string)

  /** The names `UAParser` finds for the OS, the device type and the browser; "" when unknown. */
  datatype Agent = Agent(os: string, device: string, browser: string)

  /** The handler's collaborators: `CLIENT_URL` from the environment and three libraries. */
  datatype Services = Services(
    clientUrl: string,
    compare: (string, string) -> bool,
    geoLookup: string -> Option<Geo>,
    parseAgent: string -> Agent)

  /** The parts of the HTTP request the handler reads; a missing header is "". */
  datatype RedirectRequest = RedirectRequest(
    code: string,
    password: string,
    accept: string,
    forwardedFor: string,
    remoteAddress: string,
    userAgent: string)

  datatype RedirectResponse =
    | NotFound                  // 404
    | Expired                   // 410
    | PasswordGate(location: string)  // 302 to the client's password page
    | InvalidPassword           // 401
    | UrlJson(url: string)      // 200 `{url}` for an API call
    | Redirect(location: string)      // 302 to the destination

  /** The access decision that precedes any recording. */
  datatype Access = Unknown | Gone | NeedsPassword | WrongPassword | Granted

  /** The expiry test is strict: at the instant `expiresAt` the Link still resolves. */
  predicate HasExpired(l: Link, now: int) {
    l.expiresAt.Some? && now > l.expiresAt.value
  }

  /** `if (link.password)`: a stored hash that is present and not empty. */
  predicate IsProtected(l: Link) {
    l.password.Some? && l.password.value != ""
  }

  function CheckAccess(store: Store, code: string, password: string, now: int, compare: (string, string) -> bool)
    : (a: Access)
    ensures a == Unknown <==> code !in store
    ensures a == Gone <==> code in store && HasExpired(store[code], now)
    ensures a == NeedsPassword <==>
      code in store && !HasExpired(store[code], now) && IsProtected(store[code]) && password == ""
    ensures a == WrongPassword <==>
      && code in store && !HasExpired(store[code], now) && IsProtected(store[code]) && password != ""
      && !compare(password, store[code].password.value)
    ensures a == Granted <==>
      && code in store && !HasExpired(store[code], now)
      && (IsProtected(store[code]) ==> password != "" && compare(password, store[code].password.value))
  {
    if code !in store then Unknown
    else
      var l := store[code];
      if HasExpired(l, now) then Gone
      else if IsProtected(l) && password == "" then NeedsPassword
      else if IsProtected(l) && !compare(password, l.password.value) then WrongPassword
      else Granted
  }

  /** An expired Link is gone whatever password is offered; an unexpired one never is. */
  lemma ExpiryDominates(store: Store, code: string, p1: string, p2: string, now: int, compare: (string, string) -> bool)
    requires code in store
    ensures HasExpired(store[code], now) ==> CheckAccess(store, code, p1, now, compare) == Gone
    ensures CheckAccess(store, code, p1, now, compare) == Gone <==> CheckAccess(store, code, p2, now, compare) == Gone
    ensures store[code].expiresAt == Some(now) ==> CheckAccess(store, code, p1, now, compare) != Gone
  {
  }

  /** The first hop of a forwarded-for chain, trimmed, holds no comma. */
  lemma FirstHopHasNoComma(raw: string)
    ensures ',' !in Trim(FirstSegment(raw))
  {
    var i, j := TrimBounds(FirstSegment(raw));
  }

  /** The addresses that stand for the local machine; the handler swaps them for a public test address. */
  predicate IsLoopback(ip: string) {
    ip == "::1" || ip == "127.0.0.1"
  }

  const TestAddress: string := "8.8.8.8"

  /** `x-forwarded-for || socket.remoteAddress`. */
  function ClientAddress(forwardedFor: string, remoteAddress: string): (ip: string)
    ensures forwardedFor != "" ==> ip == forwardedFor
    ensures forwardedFor == "" ==> ip == remoteAddress
  {
    if forwardedFor != "" then forwardedFor else remoteAddress
  }

  /**
    The IP clean-up: a forwarded-for chain is cut to its first hop, trimmed;
    then a loopback address becomes the test address. No comma survives and no
    loopback address survives; a value with neither is left as it is.
   */
  function NormalizeIp(raw: string): (ip: string)
    ensures ',' !in ip
    ensures !IsLoopback(ip)
    ensures ',' !in raw && !IsLoopback(raw) ==> ip == raw
    ensures ',' !in raw && IsLoopback(raw) ==> ip == TestAddress
    ensures ',' in raw && IsLoopback(Trim(FirstSegment(raw))) ==> ip == TestAddress
    ensures ',' in raw && !IsLoopback(Trim(FirstSegment(raw))) ==> ip == Trim(FirstSegment(raw))
  {
    var first := if ',' in raw then Trim(FirstSegment(raw)) else raw;
    FirstHopHasNoComma(raw);
    if IsLoopback(first) then TestAddress else first
  }

  /** Normalising an already normalised address changes nothing. */
  lemma NormalizeIpIdempotent(raw: string)
    ensures NormalizeIp(NormalizeIp(raw)) == NormalizeIp(raw)
  {
  }

  const DefaultDevice: string := "Desktop"

  /** The visit a granted request appends: the given fields, with falsy ones replaced by the defaults. */
  function NewVisit(now: int, ip: string, geo: Option<Geo>, agent: Agent): (v: Visit)
    ensures v.timestamp == Some(now) && v.ip == ip
    ensures v.country != "" && v.city != "" && v.os != "" && v.device != "" && v.browser != ""
    ensures geo.Some? && geo.value.country != "" ==> v.country == geo.value.country
    ensures geo.Some? && geo.value.city != "" ==> v.city == geo.value.city
    ensures geo.None? || geo.value.country == "" ==> v.country == UnknownName
    ensures geo.None? || geo.value.city == "" ==> v.city == UnknownName
    ensures v.os == (if agent.os != "" then agent.os else UnknownName)
    ensures v.device == (if agent.device != "" then agent.device else DefaultDevice)
    ensures v.browser == (if agent.browser != "" then agent.browser else UnknownName)
  {
    var g := geo.GetOr(Geo("", ""));
    Visit(
      Some(now), ip,
      OrDefault(g.country, UnknownName), OrDefault(g.city, UnknownName),
      OrDefault(agent.os, UnknownName), OrDefault(agent.device, DefaultDevice), OrDefault(agent.browser, UnknownName))
  }

  /**
    The visit recorded for `req` at time `now`: stamped with `now`, from a single
    non-loopback address, with every looked-up field filled in.
   */
  function VisitFor(req: RedirectRequest, now: int, svc: Services): (v: Visit)
    ensures v.timestamp == Some(now)
    ensures v.ip == NormalizeIp(ClientAddress(req.forwardedFor, req.remoteAddress))
    ensures v == NewVisit(now, v.ip, svc.geoLookup(v.ip), svc.parseAgent(req.userAgent))
    ensures ',' !in v.ip && !IsLoopback(v.ip)
    ensures v.country != "" && v.city != "" && v.os != "" && v.device != "" && v.browser != ""
  {
    var ip := NormalizeIp(ClientAddress(req.forwardedFor, req.remoteAddress));
    NewVisit(now, ip, svc.geoLookup(ip), svc.parseAgent(req.userAgent))
  }

  /** `link.clicks++` and `visitHistory.push(visit)`. */
  function RecordVisit(l: Link, v: Visit): (l': Link)
    ensures l'.clicks == l.clicks + 1
    ensures |l'.visitHistory| == |l.visitHistory| + 1
    ensures l'.visitHistory[..|l.visitHistory|] == l.visitHistory
    ensures l'.visitHistory[|l.visitHistory|] == v
    ensures l' == l.(clicks := l'.clicks, visitHistory := l'.visitHistory)
  {
    l.(clicks := l.clicks + 1, visitHistory := l.visitHistory + [v])
  }

  /** `accept?.includes('application/json')`. */
  predicate IsApiCall(accept: string) {
    Includes(accept, "application/json")
  }

  function RedirectUrl(store: Store, req: RedirectRequest, now: int, svc: Services): (r: Reply<RedirectResponse>)
    ensures r.response == NotFound <==> req.code !in store
    ensures r.response == Expired <==> req.code in store && HasExpired(store[req.code], now)
    ensures r.response.PasswordGate? <==> CheckAccess(store, req.code, req.password, now, svc.compare) == NeedsPassword
    ensures r.response.PasswordGate? ==> r.response.location == svc.clientUrl + "?gate=" + req.code
    ensures r.response == InvalidPassword <==>
      CheckAccess(store, req.code, req.password, now, svc.compare) == WrongPassword
    ensures r.response.UrlJson? || r.response.Redirect? <==>
      CheckAccess(store, req.code, req.password, now, svc.compare) == Granted
    ensures !(r.response.UrlJson? || r.response.Redirect?) ==> r.store == store
    ensures r.response.UrlJson? ==> IsApiCall(req.accept) && r.response.url == store[req.code].originalUrl
    ensures r.response.Redirect? ==> !IsApiCall(req.accept) && r.response.location == store[req.code].originalUrl
    ensures r.response.UrlJson? || r.response.Redirect? ==>
      && r.store.Keys == store.Keys
      && r.store[req.code] == RecordVisit(store[req.code], VisitFor(req, now, svc))
      && forall c :: c in store && c != req.code ==> r.store[c] == store[c]
    ensures ValidStore(store) ==> ValidStore(r.store)
  {
    match CheckAccess(store, req.code, req.password, now, svc.compare)
    case Unknown => Reply(NotFound, store)
    case Gone => Reply(Expired, store)
    case NeedsPassword => Reply(PasswordGate(svc.clientUrl + "?gate=" + req.code), store)
    case WrongPassword => Reply(InvalidPassword, store)
    case Granted => Grant(store, req.code, VisitFor(req, now, svc), IsApiCall(req.accept))
  }

  /** The success path: record `v` on the Link under `code` and answer with its destination. */
  function Grant(store: Store, code: string, v: Visit, api: bool): (r: Reply<RedirectResponse>)
    requires code in store
    ensures api ==> r.response == UrlJson(store[code].originalUrl)
    ensures !api ==> r.response == Redirect(store[code].originalUrl)
    ensures r.store.Keys == store.Keys
    ensures r.store[code] == RecordVisit(store[code], v)
    ensures forall c :: c in store && c != code ==> r.store[c] == store[c]
    ensures ValidStore(store) ==> ValidStore(r.store)
  {
    var l := store[code];
    var s' := store[code := RecordVisit(l, v)];
    if api then Reply(UrlJson(l.originalUrl), s') else Reply(Redirect(l.originalUrl), s')
  }

  /** A granted request keeps the gap between the click counter and the history length. */
  lemma RedirectKeepsCounterGap(store: Store, req: RedirectRequest, now: int, svc: Services)
    requires req.code in store
    ensures var s' := RedirectUrl(store, req, now, svc).store;
      s'[req.code].clicks - |s'[req.code].visitHistory| == store[req.code].clicks - |store[req.code].visitHistory|
  {
  }
}

=== FILE: scenarios.dfy ===
/**
  Properties that relate several handlers: a created Link resolves, its alias is
  then taken, the gate and expiry outcomes of a created Link, and how a granted
  redirect shows up in the analytics.
 */
module Scenarios {
  import opened Options
  import opened Links
  import opened Tally
  import opened Creation
  import opened Redirection
  import opened Analytics

  /** A Link created without a password resolves, for any offered password, to its destination while it has not expired. */
  lemma CreatedLinkResolves(store: Store, req: ShortenRequest, hash: string -> string, generated: Option<string>,
                            visit: RedirectRequest, now: int, svc: Services)
    requires generated.Some? ==> generated.value !in store
    requires ShortenUrl(store, req, hash, generated).response.Created?
    requires req.password == ""
    requires req.expiresAt.None? || now <= req.expiresAt.value
    requires visit.code == ShortenUrl(store, req, hash, generated).response.link.shortCode
    ensures var r := RedirectUrl(ShortenUrl(store, req, hash, generated).store, visit, now, svc).response;
      (r == UrlJson(req.url) && IsApiCall(visit.accept)) || (r == Redirect(req.url) && !IsApiCall(visit.accept))
  {
  }

  /** Once an alias has been used, shortening again with the same alias is refused and changes nothing. */
  lemma AliasTakenAfterCreate(store: Store, req: ShortenRequest, again: ShortenRequest, hash: string -> string)
    requires req.customAlias != ""
    requires ShortenUrl(store, req, hash, None).response.Created?
    requires again.url != "" && again.customAlias == req.customAlias
    ensures var s' := ShortenUrl(store, req, hash, None).store;
      && ShortenUrl(s', again, hash, None).response == AliasInUse
      && ShortenUrl(s', again, hash, None).store == s'
  {
  }

  /** A created Link's code stays unique: the store holds it once, under that code, among the owner's Links. */
  lemma CreatedLinkIsOwned(store: Store, req: ShortenRequest, hash: string -> string, generated: Option<string>)
    requires ValidStore(store)
    requires generated.Some? ==> generated.value !in store
    requires ShortenUrl(store, req, hash, generated).response.Created?
    ensures var r := ShortenUrl(store, req, hash, generated);
      var l := r.response.link;
      && ValidStore(r.store)
      && |r.store| == |store| + 1
      && UserStats(r.store, l.userId) == UserStats(store, l.userId)[l.shortCode := l]
      && forall u :: u != l.userId ==> UserStats(r.store, u) == UserStats(store, u)
  {
    var r := ShortenUrl(store, req, hash, generated);
    UserStatsInsert(store, r.response.link);
  }

  /** Inserting a Link under a new code adds it to its owner's Links and to no one else's. */
  lemma UserStatsInsert(store: Store, l: Link)
    requires l.shortCode !in store
    ensures UserStats(store[l.shortCode := l], l.userId) == UserStats(store, l.userId)[l.shortCode := l]
    ensures forall u :: u != l.userId ==> UserStats(store[l.shortCode := l], u) == UserStats(store, u)
  {
    var s' := store[l.shortCode := l];
    var a, b := UserStats(s', l.userId), UserStats(store, l.userId)[l.shortCode := l];
    assert a.Keys == b.Keys;
    forall u | u != l.userId ensures UserStats(s', u) == UserStats(store, u) {
      assert UserStats(s', u).Keys == UserStats(store, u).Keys;
    }
  }

  /**
    A Link created with a password: no password offered leads to the gate, a password
    the hash rejects gets 401, one it accepts resolves. None of these depends on
    anything but `compare`'s verdict.
   */
  lemma ProtectedLinkOutcomes(store: Store, req: ShortenRequest, hash: string -> string,
                              visit: RedirectRequest, now: int, svc: Services)
    requires req.password != ""
    requires hash(req.password) != ""
    requires ShortenUrl(store, req, hash, None).response.Created?
    requires req.expiresAt.None? || now <= req.expiresAt.value
    requires visit.code == req.customAlias
    ensures var r := RedirectUrl(ShortenUrl(store, req, hash, None).store, visit, now, svc);
      && (visit.password == "" ==> r.response == PasswordGate(svc.clientUrl + "?gate=" + req.customAlias))
      && (visit.password != "" && !svc.compare(visit.password, hash(req.password)) ==> r.response == InvalidPassword)
      && (visit.password != "" && svc.compare(visit.password, hash(req.password)) ==>
            r.response.UrlJson? || r.response.Redirect?)
  {
  }

  /** A Link created with an expiry in the past is reported as expired, never as missing, whatever password is offered. */
  lemma PastExpiryIsExpired(store: Store, req: ShortenRequest, hash: string -> string, generated: Option<string>,
                            visit: RedirectRequest, now: int, svc: Services)
    requires generated.Some? ==> generated.value !in store
    requires ShortenUrl(store, req, hash, generated).response.Created?
    requires req.expiresAt.Some? && now > req.expiresAt.value
    requires visit.code == ShortenUrl(store, req, hash, generated).response.link.shortCode
    ensures RedirectUrl(ShortenUrl(store, req, hash, generated).store, visit, now, svc).response == Expired
  {
  }

  lemma KeysSnoc(h: seq<Visit>, v: Visit, d: Dimension)
    ensures Keys(h + [v], d) == Keys(h, d) + [KeyOf(v, d)]
  {
  }

  lemma DaysSnoc(h: seq<Visit>, v: Visit)
    requires v.timestamp.Some?
    ensures Days(h + [v]) == Days(h) + [DayOf(v.timestamp.value)]
  {
    assert (h + [v])[..|h|] == h;
  }

  /** Adding one visit adds one to its key's count in a dimension and leaves every other count alone. */
  lemma AggregateSnoc(h: seq<Visit>, v: Visit, d: Dimension, k: string)
    ensures ValueOf(Aggregate(h + [v], d), k) == ValueOf(Aggregate(h, d), k) + (if k == KeyOf(v, d) then 1 else 0)
    ensures Total(Aggregate(h + [v], d)) == Total(Aggregate(h, d)) + 1
  {
    KeysSnoc(h, v, d);
    CountBySnoc(Keys(h, d), KeyOf(v, d));
    CountByCounts(Keys(h, d));
    BumpValues(CountBy(Keys(h, d)), KeyOf(v, d), k);
    BumpTotal(CountBy(Keys(h, d)), KeyOf(v, d));
  }

  lemma AppendPrintable(h: seq<Visit>, v: Visit)
    requires TimestampsPrintable(h)
    requires v.timestamp.Some? && IsTimeValue(v.timestamp.value)
    ensures TimestampsPrintable(h + [v])
  {
    forall i | 0 <= i < |h + [v]| && (h + [v])[i].timestamp.Some?
      ensures IsTimeValue((h + [v])[i].timestamp.value)
    {
      if i < |h| { assert (h + [v])[i] == h[i]; }
    }
  }

  /** A recorded visit adds one to its key's count in each dimension of the report, and one to the dimension's total. */
  lemma RecordedVisitInBreakdown(l: Link, v: Visit, d: Dimension)
    requires TimestampsPrintable(l.visitHistory)
    requires v.timestamp.Some? && IsTimeValue(v.timestamp.value)
    ensures var before, after := Summarize(l), Summarize(RecordVisit(l, v));
      && ValueOf(Breakdown(after, d), KeyOf(v, d)) == ValueOf(Breakdown(before, d), KeyOf(v, d)) + 1
      && Total(Breakdown(after, d)) == Total(Breakdown(before, d)) + 1
  {
    AppendPrintable(l.visitHistory, v);
    AggregateSnoc(l.visitHistory, v, d, KeyOf(v, d));
  }

  /** A recorded visit adds one click to the report's total and one visit to its UTC day in the timeline. */
  lemma RecordedVisitOnTimeline(l: Link, v: Visit)
    requires TimestampsPrintable(l.visitHistory)
    requires v.timestamp.Some? && IsTimeValue(v.timestamp.value)
    ensures var before, after := Summarize(l), Summarize(RecordVisit(l, v));
      && after.totalClicks == before.totalClicks + 1
      && ValueOf(after.timeline, DayOf(v.timestamp.value)) == ValueOf(before.timeline, DayOf(v.timestamp.value)) + 1
      && Total(after.timeline) == Total(before.timeline) + 1
  {
    var h, day := l.visitHistory, DayOf(v.timestamp.value);
    AppendPrintable(h, v);
    DaysSnoc(h, v);
    CountBySnoc(Days(h), day);
    CountByCounts(Days(h));
    BumpValues(CountBy(Days(h)), day, day);
    BumpTotal(CountBy(Days(h)), day);
  }

  /**
    A granted redirect shows up in the analytics as one more click, one more visit
    under its country, OS and browser, and one more visit on the current UTC day.
   */
  lemma RedirectShowsInAnalytics(store: Store, req: RedirectRequest, now: int, svc: Services)
    requires IsTimeValue(now)
    requires req.code in store && TimestampsPrintable(store[req.code].visitHistory)
    requires CheckAccess(store, req.code, req.password, now, svc.compare) == Granted
    ensures var before := Summarize(store[req.code]);
      var after := Summarize(RedirectUrl(store, req, now, svc).store[req.code]);
      var v := VisitFor(req, now, svc);
      && after.totalClicks == before.totalClicks + 1
      && (forall d :: ValueOf(Breakdown(after, d), KeyOf(v, d)) == ValueOf(Breakdown(before, d), KeyOf(v, d)) + 1)
      && ValueOf(after.timeline, DayOf(now)) == ValueOf(before.timeline, DayOf(now)) + 1
  {
    var v := VisitFor(req, now, svc);
    forall d ensures ValueOf(Breakdown(Summarize(RecordVisit(store[req.code], v)), d), KeyOf(v, d))
                  == ValueOf(Breakdown(Summarize(store[req.code]), d), KeyOf(v, d)) + 1 {
      RecordedVisitInBreakdown(store[req.code], v, d);
    }
    RecordedVisitOnTimeline(store[req.code], v);
  }

  /** Serves the requests one after another at the same instant and returns the final store. */
  function RedirectAll(store: Store, reqs: seq<RedirectRequest>, now: int, svc: Services): Store
    decreases |reqs|
  {
    if |reqs| == 0 then store
    else RedirectAll(RedirectUrl(store, reqs[0], now, svc).store, reqs[1..], now, svc)
  }

  /** The request passes the Link's password gate: the Link is open, or the password is offered and accepted. */
  predicate Admitted(l: Link, req: RedirectRequest, compare: (string, string) -> bool) {
    IsProtected(l) ==> req.password != "" && compare(req.password, l.password.value)
  }

  /** A prefix of a prefix is a prefix. */
  lemma PrefixOfPrefix<T>(a: seq<T>, b: seq<T>, c: seq<T>)
    requires |a| <= |b| <= |c| && c[..|b|] == b && b[..|a|] == a
    ensures c[..|a|] == a
  {
  }

  /** One resolution of an unexpired Link that is open or given an accepted password records a visit and keeps the Link's gate. */
  lemma AcceptedResolution(store: Store, req: RedirectRequest, now: int, svc: Services)
    requires req.code in store && !HasExpired(store[req.code], now)
    requires Admitted(store[req.code], req, svc.compare)
    ensures var s1 := RedirectUrl(store, req, now, svc).store;
      && req.code in s1
      && s1[req.code] == RecordVisit(store[req.code], VisitFor(req, now, svc))
      && s1[req.code].password == store[req.code].password
      && s1[req.code].expiresAt == store[req.code].expiresAt
  {
  }

  /** N resolutions of an unexpired Link, each open or with an accepted password, add N clicks and append N visits after the old history. */
  lemma {:induction false} RepeatedResolutions(store: Store, code: string, reqs: seq<RedirectRequest>, now: int, svc: Services)
    requires code in store && !HasExpired(store[code], now)
    requires forall i :: 0 <= i < |reqs| ==> reqs[i].code == code && Admitted(store[code], reqs[i], svc.compare)
    ensures var s' := RedirectAll(store, reqs, now, svc);
      && code in s'
      && s'[code].clicks == store[code].clicks + |reqs|
      && |s'[code].visitHistory| == |store[code].visitHistory| + |reqs|
      && s'[code].visitHistory[..|store[code].visitHistory|] == store[code].visitHistory
  {
    if |reqs| > 0 {
      AcceptedResolution(store, reqs[0], now, svc);
      var s1 := RedirectUrl(store, reqs[0], now, svc).store;
      assert forall i :: 0 <= i < |reqs[1..]| ==> reqs[1..][i] == reqs[i + 1];
      assert forall r :: Admitted(s1[code], r, svc.compare) == Admitted(store[code], r, svc.compare);
      RepeatedResolutions(s1, code, reqs[1..], now, svc);
      var s' := RedirectAll(s1, reqs[1..], now, svc);
      PrefixOfPrefix(store[code].visitHistory, s1[code].visitHistory, s'[code].visitHistory);
    }
  }

  /** After N resolutions the analytics report N more clicks, whatever the history says. */
  lemma RepeatedResolutionsReported(store: Store, code: string, reqs: seq<RedirectRequest>, now: int, svc: Services)
    requires code in store && !HasExpired(store[code], now)
    requires forall i :: 0 <= i < |reqs| ==> reqs[i].code == code && Admitted(store[code], reqs[i], svc.compare)
    ensures var s' := RedirectAll(store, reqs, now, svc);
      && LinkAnalytics(s', code).Report?
      && (TimestampsPrintable(s'[code].visitHistory) ==>
            LinkAnalytics(s', code).summary.totalClicks == store[code].clicks + |reqs|)
  {
    RepeatedResolutions(store, code, reqs, now, svc);
  }

  /** The example of three visits from US, US and FR: US is counted twice, FR once, in that order. */
  lemma ThreeCountries(h: seq<Visit>)
    requires |h| == 3 && h[0].country == "US" && h[1].country == "US" && h[2].country == "FR"
    ensures Aggregate(h, Country) == [Entry("US", 2), Entry("FR", 1)]
  {
    var ks := Keys(h, Country);
    assert ks == ["US", "US", "FR"];
    var us: seq<string> := ["US"];
    assert CountBy(us) == [Entry("US", 1)] by {
      assert us[..0] == [];
    }
    assert CountBy(us + ["US"]) == [Entry("US", 2)] by {
      CountBySnoc(us, "US");
    }
    assert ks == us + ["US"] + ["FR"];
    CountBySnoc(us + ["US"], "FR");
  }
}

=== FILE: tally.dfy ===
/**
  Counting occurrences the way the analytics code does: a JavaScript object used
  as a dictionary is filled by one pass over the input (`counts[key] = (counts[key] || 0) + 1`)
  and then listed as `{name, value}` pairs. Every key here is an ordinary own property,
  so the listing follows insertion order, which is the order of first appearance.
 */
module Tally {

  datatype Entry<K> = Entry(name: K, value: nat)

  function Names<K>(es: seq<Entry<K>>): (ns: seq<K>)
    ensures |ns| == |es|
    ensures forall i :: 0 <= i < |es| ==> ns[i] == es[i].name
  {
    if |es| == 0 then [] else [es[0].name] + Names(es[1..])
  }

  /** Sum of all counts. */
  function Total<K>(es: seq<Entry<K>>): nat
  {
    if |es| == 0 then 0 else es[0].value + Total(es[1..])
  }

  /** The count listed for `k`, or 0 when `k` is not listed. */
  function ValueOf<K(==)>(es: seq<Entry<K>>, k: K): nat
  {
    if |es| == 0 then 0 else if es[0].name == k then es[0].value else ValueOf(es[1..], k)
  }

  predicate Distinct<K(==)>(ks: seq<K>) {
    forall i, j :: 0 <= i < j < |ks| ==> ks[i] != ks[j]
  }

  /** Position of the first occurrence of `k` in `xs`. */
  function FirstIndex<K(==)>(xs: seq<K>, k: K): (i: nat)
    requires k in xs
    ensures i < |xs| && xs[i] == k && k !in xs[..i]
  {
    if xs[0] == k then 0 else
      var i := 1 + FirstIndex(xs[1..], k);
      assert xs[..i] == [xs[0]] + xs[1..][..i - 1];
      i
  }

  /** One step of the counting pass: add one to `k`'s count, or list `k` at the end with count 1. */
  function Bump<K(==)>(es: seq<Entry<K>>, k: K): seq<Entry<K>>
  {
    if |es| == 0 then [Entry(k, 1)]
    else if es[0].name == k then [Entry(k, es[0].value + 1)] + es[1..]
    else [es[0]] + Bump(es[1..], k)
  }

  /** The whole counting pass over `xs`, one `Bump` per element in order. */
  function CountBy<K(==)>(xs: seq<K>): seq<Entry<K>>
  {
    if |xs| == 0 then [] else Bump(CountBy(xs[..|xs| - 1]), xs[|xs| - 1])
  }

  lemma CountBySnoc<K>(xs: seq<K>, x: K)
    ensures CountBy(xs + [x]) == Bump(CountBy(xs), x)
  {
    assert (xs + [x])[..|xs|] == xs;
  }

  /** A step lists a new name only when `k` was missing, and at the end. */
  lemma {:induction false} BumpNames<K>(es: seq<Entry<K>>, k: K)
    ensures Names(Bump(es, k)) == if k in Names(es) then Names(es) else Names(es) + [k]
  {
    if |es| > 0 && es[0].name != k {
      BumpNames(es[1..], k);
      assert Names(es) == [es[0].name] + Names(es[1..]);
      assert Names(Bump(es, k)) == [es[0].name] + Names(Bump(es[1..], k));
    }
  }

  lemma DistinctTail<K>(ks: seq<K>)
    requires |ks| > 0 && Distinct(ks)
    ensures Distinct(ks[1..]) && ks[0] !in ks[1..]
  {
  }

  /** A step keeps the names distinct. */
  lemma BumpDistinct<K>(es: seq<Entry<K>>, k: K)
    requires Distinct(Names(es))
    ensures Distinct(Names(Bump(es, k)))
  {
    BumpNames(es, k);
    var n0 := Names(es);
    if k !in n0 {
      var n := n0 + [k];
      forall i, j | 0 <= i < j < |n| ensures n[i] != n[j] {
        assert n[i] == n0[i];
        if j < |n0| {
          assert n[j] == n0[j];
        }
      }
    }
  }

  /** A step adds one to `k`'s count and leaves every other count alone. */
  lemma {:induction false} BumpValues<K>(es: seq<Entry<K>>, k: K, j: K)
    requires Distinct(Names(es))
    ensures ValueOf(Bump(es, k), j) == ValueOf(es, j) + (if j == k then 1 else 0)
  {
    if |es| > 0 {
      assert Names(es) == [es[0].name] + Names(es[1..]);
      DistinctTail(Names(es));
      var b := Bump(es, k);
      if es[0].name == k {
        assert b[1..] == es[1..];
      } else {
        assert b[1..] == Bump(es[1..], k);
        BumpValues(es[1..], k, j);
      }
    }
  }

  /** A step adds one to the total. */
  lemma {:induction false} BumpTotal<K>(es: seq<Entry<K>>, k: K)
    ensures Total(Bump(es, k)) == Total(es) + 1
  {
    if |es| > 0 {
      var b := Bump(es, k);
      if es[0].name == k {
        assert b[1..] == es[1..];
      } else {
        assert b[1..] == Bump(es[1..], k);
        BumpTotal(es[1..], k);
      }
    }
  }

  /** A step keeps every listed count positive. */
  lemma {:induction false} BumpPositive<K>(es: seq<Entry<K>>, k: K)
    requires forall i :: 0 <= i < |es| ==> es[i].value > 0
    ensures forall i :: 0 <= i < |Bump(es, k)| ==> Bump(es, k)[i].value > 0
  {
    if |es| > 0 && es[0].name != k {
      BumpPositive(es[1..], k);
      assert Bump(es, k) == [es[0]] + Bump(es[1..], k);
    }
  }

  /** Each name is listed once, every listed count is positive, and the count of every value is its number of occurrences. */
  lemma {:induction false} CountByCounts<K>(xs: seq<K>)
    ensures Distinct(Names(CountBy(xs)))
    ensures forall k :: k in Names(CountBy(xs)) <==> k in xs
    ensures forall k :: ValueOf(CountBy(xs), k) == multiset(xs)[k]
    ensures forall i :: 0 <= i < |CountBy(xs)| ==> CountBy(xs)[i].value > 0
  {
    if |xs| > 0 {
      var init, x := xs[..|xs| - 1], xs[|xs| - 1];
      assert xs == init + [x];
      CountByCounts(init);
      var r0 := CountBy(init);
      BumpNames(r0, x);
      BumpDistinct(r0, x);
      BumpPositive(r0, x);
      forall k ensures ValueOf(CountBy(xs), k) == multiset(xs)[k] {
        BumpValues(r0, x, k);
      }
      assert multiset(xs) == multiset(init) + multiset{x};
    }
  }

  /** The counts add up to the number of values counted. */
  lemma {:induction false} CountByTotal<K>(xs: seq<K>)
    ensures Total(CountBy(xs)) == |xs|
  {
    if |xs| > 0 {
      var init := xs[..|xs| - 1];
      CountByTotal(init);
      BumpTotal(CountBy(init), xs[|xs| - 1]);
    }
  }

  /** Every name in `ns` occurs in `xs`, and `ns` lists them in the order of their first occurrence. */
  predicate InFirstAppearanceOrder<K(==)>(ns: seq<K>, xs: seq<K>) {
    && (forall i :: 0 <= i < |ns| ==> ns[i] in xs)
    && forall i, j :: 0 <= i < j < |ns| ==>
         ns[i] in xs && ns[j] in xs && FirstIndex(xs, ns[i]) < FirstIndex(xs, ns[j])
  }

  /** Appending a value keeps the order; a name seen for the first time goes last. */
  lemma OrderStep<K>(ns: seq<K>, init: seq<K>, x: K)
    requires InFirstAppearanceOrder(ns, init)
    ensures x in ns ==> InFirstAppearanceOrder(ns, init + [x])
    ensures x !in init ==> InFirstAppearanceOrder(ns + [x], init + [x])
  {
    var xs := init + [x];
    forall k | k in init ensures FirstIndex(xs, k) == FirstIndex(init, k) {
      FirstIndexAppend(init, x, k);
    }
    if x !in init {
      assert FirstIndex(xs, x) == |init| by {
        assert xs[..|init|] == init;
      }
      var n := ns + [x];
      forall i, j | 0 <= i < j < |n|
        ensures n[i] in xs && n[j] in xs && FirstIndex(xs, n[i]) < FirstIndex(xs, n[j])
      {
        if j == |ns| {
          assert n[i] == ns[i];
        }
      }
    }
  }

  /** Names are listed in the order in which they first occur in `xs`. */
  lemma {:induction false} CountByOrder<K>(xs: seq<K>)
    ensures InFirstAppearanceOrder(Names(CountBy(xs)), xs)
  {
    if |xs| > 0 {
      var init, x := xs[..|xs| - 1], xs[|xs| - 1];
      assert xs == init + [x];
      CountByCounts(init);
      CountByOrder(init);
      BumpNames(CountBy(init), x);
      OrderStep(Names(CountBy(init)), init, x);
    }
  }

  lemma {:induction false} FirstIndexAppend<K>(xs: seq<K>, x: K, k: K)
    requires k in xs
    ensures FirstIndex(xs + [x], k) == FirstIndex(xs, k)
  {
    if xs[0] != k {
      assert (xs + [x])[1..] == xs[1..] + [x];
      FirstIndexAppend(xs[1..], x, k);
    }
  }
}
